=== FILE: README.md ===
# Identity and team directory

A model of the request handlers of a small team-management backend. The
backend registers "IR" identities in two phases: an ID is first reserved,
and then a full identity is registered under it. It groups identities into
teams through membership links. Each link carries one role: LDC, LS, GC or IR.
It also checks logins against a bcrypt password hash.

The relational store is one class, `Routing.Directory`. It has four tables:

- `slots`: the reserved IDs.
- `irs`: the registered identities, keyed by ID.
- `teams`: the teams, keyed by generated id.
- `links`: the membership rows, in insertion order.

Two counters stand for the database sequences that hand out team and link
ids. `Directory.Valid()` holds the constraints the schema enforces and the
handlers keep. The schema enforces these: slot IDs have at most 18
characters; no stored text holds the character U+0000, which a PostgreSQL
text value cannot contain and the driver refuses as a parameter; teams are
stored under their own ids; link ids increase; every
link points at an existing team and identity. Identities keep to IrModel's
field bounds because `register_new_ir` validates the record it is about to
store, and that record's password is always the 60-character hash. Two more
constraints are not in the schema, because the identity table has no
foreign key to the reserved-ID table and the link table has no unique
constraint. They hold only because the handlers check first:

- Every identity sits under a reserved ID, because `register_new_ir` looks
  the ID up before inserting.
- No two links join the same identity to the same team, whatever their
  roles, because `assign_ir_to_team` looks for an existing link first.

Every writing handler keeps `Valid()`.

The writing handlers (`AddIrId`, `RegisterNewIr`, `CreateTeam`,
`AssignIrToTeam`) are methods. Each one runs as a single transaction, so its
failure paths leave the tables as they were. The reading handlers are
functions over the tables. Each handler returns a `Response` that carries
the HTTP status the code actually sends. Those statuses follow the code, not
the `raise` lines:

- `ir_login` raises its 404 and 401 inside a broad `except Exception`,
  which answers 500 for both.
- In `add_ir_id`, a duplicate ID or an ID longer than 18 characters fails
  at validation or commit. The outer handler rolls back and answers 500.
  The inner 422 branch can never answer: it refers to an unbound name, and
  its exception would be caught by the outer handler anyway.
- `register_new_ir` takes the table model IrModel as its request body.
  Constructing a table model does not validate it, so the payload reaches
  the handler as sent. An unreserved ID gets 404; an ID over 18 characters
  is never reserved, so it gets 404 too. The handler then replaces the
  password by its hash and validates that record. A name over 45 characters
  fails there, is rolled back and gets 500. The plaintext password's length
  is never checked, because only the 60-character hash is validated. An ID
  that is already registered fails at commit with an integrity error, is
  rolled back and gets 422.
- `assign_ir_to_team` re-raises its 409 unchanged. A team id outside
  PostgreSQL's 32-bit INTEGER range fails while the insert is planned. That
  happens before the link sequence is drawn, and the answer is 500. A missing
  team or identity breaks a foreign key at commit and also gets 500. There
  the link id drawn from the sequence is spent anyway, because PostgreSQL
  sequences are not rolled back.
- A string parameter holding U+0000 is refused by the driver before the
  statement runs. A lookup by such an ID in `get_single_ir`,
  `update_ir_details`, `get_teams_by_ldc`, `ir_login` and `register_new_ir`
  sits outside any exception handler, or inside the broad one, and answers
  500. In `add_ir_id` the refused insert is rolled back and answers 500. In
  `create_team` the refused name answers 500 before a team id is drawn. In
  `assign_ir_to_team` the existence query fails, so the answer is 500 and no
  link id is drawn. A name or email holding U+0000 makes the registration
  fail at commit with 500.
- `get_team_members` passes ORM rows to a JSON response, which cannot
  serialise them. So only a team with no members gets 200 (see Findings).

In places the code answers differently from what such a service would be
expected to answer, and the model follows the code. A duplicate
registration answers 422, not 409. A password shorter than 8 characters
is accepted. Login failures answer 500, not 404 or 401. There are no handlers for renaming or deleting teams or for removing
memberships.

bcrypt is `Bcrypt.Hash(salt, p)`: the prefix `$2b$12$`, a 22-character
salt and a 31-character digest, 60 characters in all. `Bcrypt.Verifies(p, h)`
recomputes the digest from the salt stored in `h`. The lemma
`Bcrypt.HashVerifies` proves that a password verifies against its own hash.
The salt is the random input, so it is a parameter.

The wall clock and the time-zone conversion are also outside the model.
`Models.CurrentIstDateStr` and `Models.ValidateStartedDate` take the date
already converted to Indian Standard Time. `Models.ParseDate` reads
"DD-MM-YYYY" back into a date. Two lemmas prove that formatting and parsing
are inverse to each other.

Three client methods replay the expected usage, for any storable ID, name
and email within bounds. They have no contracts of their own and verify
from the handlers' contracts alone. `Routing.RegistrationScenario` reserves
an ID and registers the identity built by `Models.NewIr`, with every
optional field at its default. It then logs in with the same password, and
a second registration fails with 422. `Routing.ValidationScenario` shows
that an unreserved ID fails with 404, an ID holding U+0000 cannot be
reserved, a name over 45 characters fails with 500, and the empty password
is accepted. `Routing.AssignmentScenario` makes an identity
the LDC of a new team. It checks that the team is then listed for that
identity, and that a second assignment under GC is refused with 409.

## Model

| member | source | states |
|---|---|---|
| Models.ParseRole | src/api/events/models.py:10-14 | a role field is accepted exactly when it is one of "LDC", "LS", "GC", "IR", and then names that role |
| Models.RoleRoundTrip | src/api/events/models.py:43-46 | every role's enum value parses back to the same role |
| Models.FormatDate | src/api/events/models.py:23 | "%d-%m-%Y" gives ten characters: two-digit day, '-', two-digit month, '-', four-digit year |
| Models.FormatThenParse | src/api/events/models.py:23 | a formatted date reads back as the same date |
| Models.ParseThenFormat | src/api/events/models.py:23 | a string that reads as a date is exactly that date's formatted form, so formatting is one-to-one |
| Models.CurrentIstDateStr | src/api/events/models.py:21-23 | today's IST date as a "DD-MM-YYYY" string that reads back as that date |
| Models.ValidateStartedDate | src/api/events/models.py:86-91 | a datetime becomes its IST date as "DD-MM-YYYY"; any other value passes through unchanged |
| Models.NewIr | src/api/events/models.py:72-82 | a new identity keeps the given fields, has status true, all four counters 0 and today's IST date as its start date; it is within bounds exactly when id ≤ 18, name ≤ 45 and 8 ≤ password ≤ 64 characters; its text can be stored exactly when the id, name and email hold no U+0000 |
| Bcrypt.Hash | src/api/events/routing.py:151 | the stored hash has 60 characters, starts with "$2b$12$" and carries its salt |
| Bcrypt.Verifies | src/api/events/routing.py:179 | a stored hash verifies a password exactly when it is the hash of that password under some salt |
| Bcrypt.HashVerifies | src/api/events/routing.py:151-179 | a password always verifies against its own hash, whatever the salt |
| Routing.Redact | src/api/events/routing.py:182 | the login answer carries every column of the identity except the password |
| Routing.RedactIgnoresPassword | src/api/events/routing.py:182 | the login answer is the same whatever the stored password, so it reveals nothing of it |
| Routing.AppendKeepsPairsUnique | src/api/events/routing.py:204-224 | inserting a link only after finding no link for its pair keeps every (identity, team) pair linked at most once |
| Routing.FirstLinkFor | src/api/events/routing.py:204-209 | the existence query finds the first link for the (ir_id, team_id) pair, and finds none exactly when no link has that pair |
| Routing.MembersOf | src/api/events/routing.py:107-109 | a link is selected exactly when it is in the table and belongs to the team, and it occurs in the selection exactly as often as in the table |
| Routing.MembersOfEmpty | src/api/events/routing.py:107-109 | the selection is empty exactly when no link points at the team |
| Routing.LdcTeams | src/api/events/routing.py:93-98 | a team is in the join exactly when some LDC link of the identity points at that existing team |
| Routing.LdcTeamsDistinct | src/api/events/routing.py:93-98 | under pair uniqueness, with teams stored under their own ids, no team appears twice in the join |
| Routing.Directory.constructor | src/api/events/models.py:49-84 | the empty tables satisfy every schema constraint |
| Routing.Directory.GetAllIr | src/api/events/routing.py:43-50 | answers 200 with exactly the reserved IDs |
| Routing.Directory.GetSingleIr | src/api/events/routing.py:52-58 | answers 200 with the ID exactly when it holds no U+0000 and is reserved; 404 for another storable ID, and 500 for one the driver refuses |
| Routing.Directory.GetAllRegisteredIr | src/api/events/routing.py:60-67 | answers 200 with exactly the stored identity rows, password hashes included |
| Routing.Directory.GetLdcs | src/api/events/routing.py:69-88 | answers 200 with exactly the registered identities that hold some LDC link, each with its name, and lists each identity at most once |
| Routing.Directory.GetTeamsByLdc | src/api/events/routing.py:90-102 | answers 200 with exactly the teams that have a link (ldc_id, team, LDC), and no team twice; 500 for an ID the driver refuses |
| Routing.Directory.GetTeamMembers | src/api/events/routing.py:104-112 | as written: 200 with an empty list exactly when no link points at the team, and 500 otherwise |
| Routing.Directory.TeamMembersIntended | src/api/events/routing.py:104-112 | as intended: 200 with exactly the team's links, each as often as it occurs in the table |
| Routing.Directory.MemberListingFails | src/api/events/routing.py:110 | the written listing succeeds exactly when the intended one is empty, and fails with 500 for any team that has a member |
| Routing.Directory.IrLogin | src/api/events/routing.py:171-186 | succeeds exactly when the id holds no U+0000, is registered and the password verifies against its stored hash; the answer is 201 with the record minus its password; every failure is 500 |
| Routing.Directory.IrLoginIntended | src/api/events/routing.py:176-183 | as the raise lines intend: the same success, 404 for an unregistered id, 401 for a bad password; an id the driver refuses still answers 500 |
| Routing.Directory.LoginErrorsBecomeServerErrors | src/api/events/routing.py:184-186 | both versions fail on the same requests; the written one answers 500 where the intended one answers 404 or 401 |
| Routing.Directory.UpdateIrDetails | src/api/events/routing.py:241-248 | answers 200 exactly when the ID holds no U+0000 and is reserved; 404 for another storable ID and 500 for one the driver refuses; nothing is updated |
| Routing.Directory.AddIrId | src/api/events/routing.py:117-135 | reserves the ID with 200 exactly when it has at most 18 characters, holds no U+0000 and is not yet reserved; otherwise 500 and nothing changes; afterwards get_single_ir finds the ID |
| Routing.Directory.RegisterNewIr | src/api/events/routing.py:138-169 | 500 for an ID the driver refuses, before the 404 check; 404 for an unreserved ID; 500 for a name over 45 characters, whatever the password's length, or for an ID, name, email or start date holding U+0000; 422 for an ID already registered; otherwise 201 and exactly one new row under that ID, whose password is Hash(salt, password); failures change nothing; afterwards a login with the same password succeeds |
| Routing.Directory.CreateTeam | src/api/events/routing.py:188-198 | 201 with one new team under a fresh id, with the given name and no members, exactly when the name holds no U+0000; otherwise 500 with no team id drawn; nothing else changes |
| Routing.Directory.AssignIrToTeam | src/api/events/routing.py:200-235 | 422 for a role outside the enum; 500 for an identity id the driver refuses, with the link sequence untouched; 409 whenever the pair is already linked, whatever the role; 500 for a team id outside the 32-bit INTEGER range, with the link sequence untouched; 500 when the team or identity is missing, with the link id spent; otherwise 201 and exactly one appended link (next id, team, identity, role); pair uniqueness is preserved; an LDC assignment makes the team listed for the identity and the identity listed as LDC |

## Findings

| source | as written | input that shows it | evidently intended | confidence | as-written member | corrected member |
|---|---|---|---|---|---|---|
| src/api/events/routing.py:110 | the response is built from ORM rows, which the JSON encoder rejects; the error is caught and answered with 500 | get_team_members for a team with one member link | 200 with the team's links | not executed; high | Routing.Directory.GetTeamMembers, shown by Routing.Directory.MemberListingFails | Routing.Directory.TeamMembersIntended |
| src/api/events/routing.py:176-186 | the 404 and 401 raised inside the try are caught by `except Exception` and answered with 500 | ir_login with an id that was never registered | 404 for an unknown id, 401 for a bad password | not executed; high | Routing.Directory.IrLogin, shown by Routing.Directory.LoginErrorsBecomeServerErrors | Routing.Directory.IrLoginIntended |

In both rows the handler model keeps the written behaviour, because that is
what the service answers. The corrected function is proved next to it.

## Left out

- Database failures (lost connection, timeouts) are not modelled. The reading handlers always answer 200, although the code would answer 500 on such an error.
- Routing.Directory.RegisterNewIr: the email is not checked. EmailStr's format check belongs to an external validator library; a malformed email would fail the validation of the hashed record and answer 500.
- Routing.Directory.RegisterNewIr: a password holding U+0000 is not refused. The bcrypt library rejects such a password, outside any exception handler, so the service would answer a bare 500; the model hashes it like any other.
- Routing.Directory.RegisterNewIr: request bodies are taken to be well typed. A field of the wrong JSON type reaches the unvalidated table model and fails later, and the model does not follow it there.
- The bcrypt key derivation is not modelled, nor its cost factor or its 72-byte password truncation. `Bcrypt.Digest` is a stand-in: the low 31 base-64 digits of the salt and password read as one number. The model relies only on its length, its alphabet and its being a function of the salt and the password. Unlike bcrypt's output, it is not one-way. A bcrypt error in `bcrypt.hash` is not modelled either; that call sits outside the try block, so such an error would answer a bare 500.
- The wall clock and the conversion to Indian Standard Time are not modelled; the IST calendar date is a parameter.
- Models.FormatDate pads every year to four digits. For years before 1000 the C library's %Y may print fewer digits.
- JSON serialisation and message texts are not modelled. A response carries its status and the data of its body only.
- Result order is not modelled. The SQL queries have no ORDER BY; the model lists links in insertion order and returns the coordinator listing as a set.
- Sequence exhaustion is not modelled. The team and link sequences are 32-bit in PostgreSQL, but the model's counters grow without bound.
- Concurrency is not modelled, including the race between the existence check and the insert in assign_ir_to_team. The model is sequential.
- The started-date validator runs on request data. A JSON body cannot carry a datetime, so `RegisterNewIr` takes the started date as given, and `ValidateStartedDate` models the validator on its own.
- The duplicate TeamRole enum in routing.py (lines 36-40) has the same four values, and is treated as the one enum.
- Weekly rollup, week-boundary computation, info and plan entries, access levels, and team rename and delete are left out. No modelled file implements them. InfoDetailModel is not part of this model.
- Engine and session setup, application wiring, migrations and the duplicate validation schemas are left out; they contain no domain logic.

=== FILE: bcrypt.dfy ===
/**
 * Password hashing as the directory uses it: a salted one-way hash whose
 * stored form carries its own salt, and a check that recomputes the hash
 * from that salt.
 *
 * The key-derivation itself belongs to the bcrypt library and is not part
 * of this model. `Digest` stands in for it: the model relies only on its
 * length and on its being a function of the salt and the password.
 */
module Bcrypt {

  /** Algorithm tag and cost factor of the stored form: "$2b$" and a cost of 12. */
  const Prefix := "$2b$12$"
  const SaltLength := 22
  const DigestLength := 31
  const HashLength := 60

  /** The alphabet of bcrypt's base-64 encoding. */
  const Alphabet := "./ABCDEFGHIJKLMNOPQRSTUVWXYZabcdefghijklmnopqrstuvwxyz0123456789"

  /** Twenty-two characters of bcrypt's alphabet. */
  predicate IsSalt(s: string)
  {
    |s| == SaltLength && forall i :: 0 <= i < |s| ==> s[i] in Alphabet
  }

  /** The random salt drawn for each new hash. */
  type Salt = s: string | IsSalt(s) witness Alphabet[..SaltLength]

  /**
   * The string read as a number in base 0x11_0001, one digit per character.
   * The base is odd, so every character still reaches the low digits that
   * the digest keeps.
   */
  function Mix(s: string): nat
  {
    if s == [] then 0 else 0x11_0001 * Mix(s[..|s| - 1]) + s[|s| - 1] as int
  }

  /** The lowest `count` base-64 digits of `m`, least significant first, in bcrypt's alphabet. */
  function Base64Digits(m: nat, count: nat): (d: string)
    ensures |d| == count
    ensures forall i :: 0 <= i < |d| ==> d[i] in Alphabet
  {
    if count == 0 then []
    else [Alphabet[m % 64]] + Base64Digits(m / 64, count - 1)
  }

  /** Stand-in for the encoded key-derivation output of bcrypt. */
  function Digest(salt: string, password: string): (d: string)
    ensures |d| == DigestLength
    ensures forall i :: 0 <= i < |d| ==> d[i] in Alphabet
  {
    Base64Digits(Mix(salt + password), DigestLength)
  }

  /** bcrypt.hash: prefix, salt, digest. */
  function Hash(salt: Salt, password: string): (h: string)
    ensures |h| == HashLength
    ensures h[..|Prefix|] == Prefix
    ensures h[|Prefix|..|Prefix| + SaltLength] == salt
    ensures h[|Prefix| + SaltLength..] == Digest(salt, password)
  {
    Prefix + salt + Digest(salt, password)
  }

  /**
   * bcrypt.verify: the stored hash is well formed and its digest, recomputed
   * from the salt it carries, matches. So a stored hash verifies exactly when
   * it is the hash of the password under some salt.
   */
  predicate Verifies(password: string, h: string): (ok: bool)
    ensures ok <==> exists salt: Salt :: h == Hash(salt, password)
  {
    if |h| == HashLength && h[..|Prefix|] == Prefix && IsSalt(h[|Prefix|..|Prefix| + SaltLength]) then
      var salt: Salt := h[|Prefix|..|Prefix| + SaltLength];
      assert h == Prefix + salt + h[|Prefix| + SaltLength..];
      assert Hash(salt, password) == Prefix + salt + Digest(salt, password);
      h[|Prefix| + SaltLength..] == Digest(salt, password)
    else
      false
  }

  /** A password always verifies against its own hash, whatever the salt. */
  lemma HashVerifies(salt: Salt, password: string)
    ensures Verifies(password, Hash(salt, password))
  {
    var h := Hash(salt, password);
    assert h[|Prefix| + SaltLength..] == Digest(salt, password);
  }
}

=== FILE: models.dfy ===
/**
 * The record shapes of the identity-and-team directory: the role enum, the
 * field bounds and defaults of the identity record, and the "DD-MM-YYYY"
 * start-date string.
 */
module Models {
  import opened Wrappers

  /** The four roles a team membership can carry. */
  datatype TeamRole = LDC | LS | GC | IR

  /** The enum value of a role, as it travels in a request. */
  function RoleName(role: TeamRole): string
  {
    match role
    case LDC => "LDC"
    case LS => "LS"
    case GC => "GC"
    case IR => "IR"
  }

  /** Request validation of a role field: only the four enum values are accepted. */
  function ParseRole(s: string): (r: Option<TeamRole>)
    ensures r.Some? <==> s in {"LDC", "LS", "GC", "IR"}
    ensures r.Some? ==> RoleName(r.value) == s
  {
    if s == "LDC" then Some(LDC)
    else if s == "LS" then Some(LS)
    else if s == "GC" then Some(GC)
    else if s == "IR" then Some(IR)
    else None
  }

  /** Every role survives the trip through its enum value. */
  lemma RoleRoundTrip(role: TeamRole)
    ensures ParseRole(RoleName(role)) == Some(role)
  {
  }

  // Column and field bounds of the tables.
  const IrIdMaxLength := 18
  const IrNameMaxLength := 45
  const PasswordMinLength := 8
  const PasswordMaxLength := 64

  /** A calendar date, as strftime's %d, %m and %Y directives read it. */
  datatype Date = Date(day: int, month: int, year: int)

  predicate IsLeapYear(year: int)
  {
    year % 4 == 0 && (year % 100 != 0 || year % 400 == 0)
  }

  function DaysInMonth(month: int, year: int): int
  {
    if month == 2 then (if IsLeapYear(year) then 29 else 28)
    else if month == 4 || month == 6 || month == 9 || month == 11 then 30
    else 31
  }

  /** A date a Python datetime can hold (years 1 to 9999). */
  predicate ValidDate(d: Date)
  {
    && 1 <= d.year <= 9999
    && 1 <= d.month <= 12
    && 1 <= d.day <= DaysInMonth(d.month, d.year)
  }

  function Pow10(n: nat): nat
  {
    if n == 0 then 1 else 10 * Pow10(n - 1)
  }

  predicate IsDigit(c: char)
  {
    '0' <= c <= '9'
  }

  predicate AllDigits(s: string)
  {
    forall i :: 0 <= i < |s| ==> IsDigit(s[i])
  }

  /** The number a string of decimal digits denotes. */
  function DigitsValue(s: string): nat
    requires AllDigits(s)
  {
    if s == [] then 0 else 10 * DigitsValue(s[..|s| - 1]) + (s[|s| - 1] as int - '0' as int)
  }

  /** `n` in decimal, zero-padded on the left to exactly `width` digits. */
  function Padded(n: nat, width: nat): (s: string)
    requires n < Pow10(width)
    ensures |s| == width && AllDigits(s)
    ensures DigitsValue(s) == n
  {
    if width == 0 then []
    else
      var front := Padded(n / 10, width - 1);
      var s := front + [('0' as int + n % 10) as char];
      assert s[..|s| - 1] == front;
      s
  }

  /** Every digit string of length `width` is the padded form of its value. */
  lemma {:induction false} PaddedDigitsValue(s: string)
    requires AllDigits(s)
    ensures DigitsValue(s) < Pow10(|s|)
    ensures Padded(DigitsValue(s), |s|) == s
  {
    if s != [] {
      var front := s[..|s| - 1];
      PaddedDigitsValue(front);
      assert DigitsValue(s) / 10 == DigitsValue(front);
      assert s == front + [s[|s| - 1]];
    }
  }

  /** strftime("%d-%m-%Y"): day and month on two digits, the year on four. */
  function FormatDate(d: Date): (s: string)
    requires ValidDate(d)
    ensures |s| == 10 && s[2] == '-' && s[5] == '-'
    ensures AllDigits(s[..2]) && AllDigits(s[3..5]) && AllDigits(s[6..])
    ensures forall i :: 0 <= i < |s| ==> IsDigit(s[i]) || s[i] == '-'
  {
    var s := Padded(d.day, 2) + "-" + Padded(d.month, 2) + "-" + Padded(d.year, 4);
    assert s[..2] == Padded(d.day, 2) && s[3..5] == Padded(d.month, 2) && s[6..] == Padded(d.year, 4);
    assert forall i :: 0 <= i < 2 ==> s[i] == s[..2][i];
    assert forall i :: 3 <= i < 5 ==> s[i] == s[3..5][i - 3];
    assert forall i :: 6 <= i < 10 ==> s[i] == s[6..][i - 6];
    s
  }

  /** Reads a "DD-MM-YYYY" string back into a date; None when it is not one. */
  function ParseDate(s: string): (r: Option<Date>)
    ensures r.Some? ==> ValidDate(r.value)
  {
    if |s| == 10 && s[2] == '-' && s[5] == '-' && AllDigits(s[..2]) && AllDigits(s[3..5]) && AllDigits(s[6..]) then
      var d := Date(DigitsValue(s[..2]), DigitsValue(s[3..5]), DigitsValue(s[6..]));
      if ValidDate(d) then Some(d) else None
    else
      None
  }

  /** The formatted date reads back as the same date. */
  lemma FormatThenParse(d: Date)
    requires ValidDate(d)
    ensures ParseDate(FormatDate(d)) == Some(d)
  {
    var s := FormatDate(d);
    assert s[..2] == Padded(d.day, 2) && s[3..5] == Padded(d.month, 2) && s[6..] == Padded(d.year, 4);
  }

  /** Formatting the date that three digit strings denote gives back those strings. */
  lemma FormatDigits(dd: string, mm: string, yyyy: string)
    requires |dd| == 2 && |mm| == 2 && |yyyy| == 4
    requires AllDigits(dd) && AllDigits(mm) && AllDigits(yyyy)
    requires ValidDate(Date(DigitsValue(dd), DigitsValue(mm), DigitsValue(yyyy)))
    ensures FormatDate(Date(DigitsValue(dd), DigitsValue(mm), DigitsValue(yyyy))) == dd + "-" + mm + "-" + yyyy
  {
    PaddedDigitsValue(dd);
    PaddedDigitsValue(mm);
    PaddedDigitsValue(yyyy);
  }

  /** A string that reads as a date is exactly that date's formatted form. */
  lemma ParseThenFormat(s: string)
    requires ParseDate(s).Some?
    ensures FormatDate(ParseDate(s).value) == s
  {
    var dd, mm, yyyy := s[..2], s[3..5], s[6..];
    FormatDigits(dd, mm, yyyy);
    assert s == dd + "-" + mm + "-" + yyyy;
  }

  /**
   * current_ist_date_str: today's date in Indian Standard Time as
   * "DD-MM-YYYY". The clock and the time-zone conversion are outside the
   * model, so the IST calendar date is the parameter.
   */
  function CurrentIstDateStr(today: Date): (s: string)
    requires ValidDate(today)
    ensures ParseDate(s) == Some(today)
  {
    FormatThenParse(today);
    FormatDate(today)
  }

  /**
   * What the "before" validator of started_date can receive: a datetime
   * (given by its calendar date once converted to IST) or any other value,
   * a string or nothing.
   */
  datatype StartedDateInput = DateTimeValue(istDate: Date) | OtherValue(value: Option<string>)

  /** validate_started_date: a datetime becomes its IST date as "DD-MM-YYYY"; anything else passes unchanged. */
  function ValidateStartedDate(v: StartedDateInput): (r: Option<string>)
    requires v.DateTimeValue? ==> ValidDate(v.istDate)
    ensures v.OtherValue? ==> r == v.value
    ensures v.DateTimeValue? ==> r.Some? && ParseDate(r.value) == Some(v.istDate)
  {
    match v
    case DateTimeValue(date) => Some(CurrentIstDateStr(date))
    case OtherValue(value) => value
  }

  /** A row of the reserved-ID table (IrIdModel). */
  datatype IrIdRecord = IrIdRecord(irId: string)

  /** A row of the identity table (IrModel); the Optional[int] counters are Option<int>. */
  datatype Ir = Ir(
    irId: string,
    irName: string,
    irEmail: string,
    irPassword: string,
    status: bool,
    planCount: Option<int>,
    drCount: Option<int>,
    infoCount: Option<int>,
    startedDate: Option<string>,
    nameList: Option<int>)

  /** A row of the team table (TeamModel). */
  datatype Team = Team(id: int, name: string)

  /** A row of the membership table (TeamMemberLink). */
  datatype TeamMemberLink = TeamMemberLink(id: int, teamId: int, irId: string, role: TeamRole)

  /** A PostgreSQL text value cannot hold U+0000, and the driver refuses such a parameter. */
  predicate NoNul(s: string)
  {
    forall i :: 0 <= i < |s| ==> s[i] != '\0'
  }

  /** The text columns of an identity that a client supplies can be stored (the password is stored as its hash). */
  predicate TextStorable(ir: Ir)
  {
    && NoNul(ir.irId)
    && NoNul(ir.irName)
    && NoNul(ir.irEmail)
    && (ir.startedDate.Some? ==> NoNul(ir.startedDate.value))
  }

  /** The length bounds IrModel puts on its id, name and password fields. */
  predicate WithinFieldBounds(ir: Ir)
  {
    && |ir.irId| <= IrIdMaxLength
    && |ir.irName| <= IrNameMaxLength
    && PasswordMinLength <= |ir.irPassword| <= PasswordMaxLength
  }

  /**
   * An IrModel built from the required fields only: every other field takes
   * its declared default, the start date being today's IST date.
   */
  function NewIr(irId: string, irName: string, irEmail: string, irPassword: string, today: Date): (ir: Ir)
    requires ValidDate(today)
    ensures ir.irId == irId && ir.irName == irName && ir.irEmail == irEmail && ir.irPassword == irPassword
    ensures ir.status
    ensures ir.planCount == Some(0) && ir.drCount == Some(0) && ir.infoCount == Some(0) && ir.nameList == Some(0)
    ensures ir.startedDate.Some? && ParseDate(ir.startedDate.value) == Some(today)
    ensures WithinFieldBounds(ir) <==>
      |irId| <= IrIdMaxLength && |irName| <= IrNameMaxLength && PasswordMinLength <= |irPassword| <= PasswordMaxLength
    ensures TextStorable(ir) <==> NoNul(irId) && NoNul(irName) && NoNul(irEmail)
  {
    Ir(irId, irName, irEmail, irPassword, true, Some(0), Some(0), Some(0), Some(CurrentIstDateStr(today)), Some(0))
  }
}

=== FILE: routing.dfy ===
/**
 * The request handlers of the identity-and-team directory, over an abstract
 * store of four tables: reserved IDs, registered identities, teams and
 * team-membership links.
 *
 * Each handler answers with the HTTP status the code actually sends, which
 * is not always the one its `raise` lines suggest: a broad exception handler
 * turns some of them into 500.
 */
module Routing {
  import opened Wrappers
  import opened Models
  import Bcrypt

  const Ok := 200
  const Created := 201
  const Unauthorized := 401
  const NotFound := 404
  const Conflict := 409
  const Unprocessable := 422
  const ServerError := 500

  /** The range of PostgreSQL's INTEGER, the type of every id column. */
  const IntegerMin := -0x8000_0000
  const IntegerMax := 0x7fff_ffff

  predicate FitsInteger(n: int)
  {
    IntegerMin <= n <= IntegerMax
  }

  /** What a handler sends back: a status with a body, or an error status. */
  datatype Response<+T> = Success(status: int, value: T) | Failure(status: int)

  /** An identity as the login answer carries it: every column but the password. */
  datatype IrView = IrView(
    irId: string,
    irName: string,
    irEmail: string,
    status: bool,
    planCount: Option<int>,
    drCount: Option<int>,
    infoCount: Option<int>,
    startedDate: Option<string>,
    nameList: Option<int>)

  /** `model_dump(exclude={"ir_password"})`. */
  function Redact(ir: Ir): (v: IrView)
    ensures v.irId == ir.irId && v.irName == ir.irName && v.irEmail == ir.irEmail && v.status == ir.status
    ensures v.planCount == ir.planCount && v.drCount == ir.drCount && v.infoCount == ir.infoCount
    ensures v.startedDate == ir.startedDate && v.nameList == ir.nameList
  {
    IrView(ir.irId, ir.irName, ir.irEmail, ir.status, ir.planCount, ir.drCount, ir.infoCount, ir.startedDate, ir.nameList)
  }

  /** The login answer does not depend on the stored password. */
  lemma RedactIgnoresPassword(ir: Ir, password: string)
    ensures Redact(ir.(irPassword := password)) == Redact(ir)
  {
  }

  /** One entry of the coordinator listing: id, name and the id again under "id". */
  datatype LdcView = LdcView(irId: string, irName: string, id: string)

  /** The body of a successful assignment: "<role> assigned to team <team_id>". */
  datatype AssignMessage = AssignMessage(role: TeamRole, teamId: int)

  predicate SamePair(link: TeamMemberLink, irId: string, teamId: int)
  {
    link.irId == irId && link.teamId == teamId
  }

  /** No two links join the same identity to the same team, whatever their roles. */
  predicate PairsUnique(links: seq<TeamMemberLink>)
  {
    forall i, j :: 0 <= i < j < |links| ==> !SamePair(links[j], links[i].irId, links[i].teamId)
  }

  /** Appending a link for a pair not yet linked keeps pair uniqueness. */
  lemma {:induction false} AppendKeepsPairsUnique(links: seq<TeamMemberLink>, link: TeamMemberLink)
    requires PairsUnique(links)
    requires forall l :: l in links ==> !SamePair(l, link.irId, link.teamId)
    ensures PairsUnique(links + [link])
  {
    var after := links + [link];
    forall i, j | 0 <= i < j < |after|
      ensures !SamePair(after[j], after[i].irId, after[i].teamId)
    {
      if j == |links| {
        assert links[i] in links;
      } else {
        assert after[i] == links[i] && after[j] == links[j];
      }
    }
  }

  /** The existence query of assign_ir_to_team and its `.first()`: the first link for the pair, if any. */
  function FirstLinkFor(links: seq<TeamMemberLink>, irId: string, teamId: int): (r: Option<nat>)
    ensures r.Some? ==> r.value < |links| && SamePair(links[r.value], irId, teamId)
    ensures r.Some? ==> forall k :: 0 <= k < r.value ==> !SamePair(links[k], irId, teamId)
    ensures r.None? <==> forall k :: 0 <= k < |links| ==> !SamePair(links[k], irId, teamId)
  {
    if links == [] then None
    else if SamePair(links[0], irId, teamId) then Some(0)
    else
      match FirstLinkFor(links[1..], irId, teamId)
      case None => None
      case Some(k) => Some(k + 1)
  }

  /** `select(TeamMemberLink).where(team_id == teamId)`: the team's links, in table order. */
  function MembersOf(links: seq<TeamMemberLink>, teamId: int): (r: seq<TeamMemberLink>)
    ensures |r| <= |links|
    ensures forall l :: l in r <==> l in links && l.teamId == teamId
    ensures forall l :: multiset(r)[l] == (if l.teamId == teamId then multiset(links)[l] else 0)
  {
    if links == [] then []
    else
      assert links == [links[0]] + links[1..];
      (if links[0].teamId == teamId then [links[0]] else []) + MembersOf(links[1..], teamId)
  }

  /** A team has no member rows exactly when no link points at it. */
  lemma {:induction false} MembersOfEmpty(links: seq<TeamMemberLink>, teamId: int)
    ensures MembersOf(links, teamId) == [] <==> forall l :: l in links ==> l.teamId != teamId
  {
    if links != [] {
      MembersOfEmpty(links[1..], teamId);
      assert forall l :: l in links <==> l == links[0] || l in links[1..];
    }
  }

  /** The join of get_teams_by_ldc: one team per LDC link of `ldcId` whose team row exists. */
  function LdcTeams(links: seq<TeamMemberLink>, teams: map<int, Team>, ldcId: string): (r: seq<Team>)
    ensures forall t :: t in r <==>
      exists l :: l in links && l.irId == ldcId && l.role == LDC && l.teamId in teams && teams[l.teamId] == t
  {
    if links == [] then []
    else
      var l := links[0];
      (if l.irId == ldcId && l.role == LDC && l.teamId in teams then [teams[l.teamId]] else [])
        + LdcTeams(links[1..], teams, ldcId)
  }

  /** Under pair uniqueness, and with teams stored under their own ids, no team is listed twice. */
  lemma {:induction false} LdcTeamsDistinct(links: seq<TeamMemberLink>, teams: map<int, Team>, ldcId: string)
    requires PairsUnique(links)
    requires forall k :: k in teams ==> teams[k].id == k
    ensures forall i, j :: 0 <= i < j < |LdcTeams(links, teams, ldcId)| ==>
      LdcTeams(links, teams, ldcId)[i] != LdcTeams(links, teams, ldcId)[j]
  {
    if links != [] {
      var l, rest := links[0], links[1..];
      assert PairsUnique(rest) by {
        forall i, j | 0 <= i < j < |rest|
          ensures !SamePair(rest[j], rest[i].irId, rest[i].teamId)
        {
          assert rest[i] == links[i + 1] && rest[j] == links[j + 1];
        }
      }
      LdcTeamsDistinct(rest, teams, ldcId);
      if l.irId == ldcId && l.role == LDC && l.teamId in teams {
        var r, tail := LdcTeams(links, teams, ldcId), LdcTeams(rest, teams, ldcId);
        // every later LDC link of ldcId points at another team
        forall t | t in tail
          ensures t != teams[l.teamId]
        {
          var m :| m in rest && m.irId == ldcId && m.role == LDC && m.teamId in teams && teams[m.teamId] == t;
          var j :| 0 <= j < |rest| && rest[j] == m;
          assert links[j + 1] == m;
        }
        assert r == [teams[l.teamId]] + tail;
        forall i, j | 0 <= i < j < |r|
          ensures r[i] != r[j]
        {
          assert r[j] == tail[j - 1] && tail[j - 1] in tail;
          if i > 0 {
            assert r[i] == tail[i - 1];
          }
        }
      } else {
        assert LdcTeams(links, teams, ldcId) == LdcTeams(rest, teams, ldcId);
      }
    }
  }

  /** The identities holding at least one LDC link: the set comprehension of get_ldcs. */
  function LdcIds(links: seq<TeamMemberLink>): set<string>
  {
    set l | l in links && l.role == LDC :: l.irId
  }

  /**
   * The identity table: every identity is registered under a reserved ID,
   * is stored under its own ID, and keeps to IrModel's field bounds and to
   * storable text.
   */
  ghost predicate IdentitiesValid(slots: set<string>, irs: map<string, Ir>)
  {
    && irs.Keys <= slots
    && (forall id | id in irs :: irs[id].irId == id && WithinFieldBounds(irs[id]) && TextStorable(irs[id]))
  }

  /**
   * The relational store behind the handlers. Every handler runs as one
   * transaction: on failure it is rolled back, so only the success paths
   * change the tables. Team and link ids come from sequences.
   */
  class Directory {
    var slots: set<string>
    var irs: map<string, Ir>
    var teams: map<int, Team>
    var links: seq<TeamMemberLink>
    var nextTeamId: int
    var nextLinkId: int

    /** The constraints the schema enforces and the handlers keep. */
    ghost predicate Valid()
      reads this
    {
      // primary keys of the reserved-ID table are at most 18 characters of storable text
      && (forall s | s in slots :: |s| <= IrIdMaxLength && NoNul(s))
      && IdentitiesValid(slots, irs)
      // team ids come from a sequence starting at 1
      && 1 <= nextTeamId
      && (forall k | k in teams :: teams[k].id == k && 1 <= k < nextTeamId && NoNul(teams[k].name))
      // link ids come from a sequence starting at 1, in insertion order
      && 1 <= nextLinkId
      && (forall i | 0 <= i < |links| :: 1 <= links[i].id < nextLinkId)
      && (forall i, j | 0 <= i < j < |links| :: links[i].id < links[j].id)
      // foreign keys of the link table
      && (forall i | 0 <= i < |links| :: links[i].teamId in teams && links[i].irId in irs)
      && PairsUnique(links)
    }

    /** An empty schema, as create_all leaves it. */
    constructor ()
      ensures Valid()
      ensures slots == {} && irs == map[] && teams == map[] && links == []
    {
      slots, irs, teams, links := {}, map[], map[], [];
      nextTeamId, nextLinkId := 1, 1;
    }

    /** get_all_ir: every reserved ID. */
    function GetAllIr(): (r: Response<set<IrIdRecord>>)
      reads this
      ensures r.Success? && r.status == Ok
      ensures forall rec :: rec in r.value <==> rec.irId in slots
    {
      Success(Ok, set s | s in slots :: IrIdRecord(s))
    }

    /**
     * get_single_ir: the reserved ID, or 404. The lookup is outside any
     * exception handler, so an ID the driver refuses answers a bare 500.
     */
    function GetSingleIr(irId: string): (r: Response<IrIdRecord>)
      reads this
      ensures r.Success? <==> NoNul(irId) && irId in slots
      ensures r.Success? ==> r.status == Ok && r.value.irId == irId
      ensures r.Failure? ==> r.status == (if NoNul(irId) then NotFound else ServerError)
    {
      if !NoNul(irId) then Failure(ServerError)
      else if irId in slots then Success(Ok, IrIdRecord(irId))
      else Failure(NotFound)
    }

    /** get_all_registered_ir: every identity row, password hash included. */
    function GetAllRegisteredIr(): (r: Response<set<Ir>>)
      reads this
      requires Valid()
      ensures r.Success? && r.status == Ok
      ensures forall ir :: ir in r.value <==> ir.irId in irs && irs[ir.irId] == ir
    {
      Success(Ok, irs.Values)
    }

    /** get_ldcs: each registered identity holding an LDC link, once. */
    function GetLdcs(): (r: Response<set<LdcView>>)
      reads this
      ensures r.Success? && r.status == Ok
      ensures forall v :: v in r.value <==>
        && v.irId in irs
        && v.irName == irs[v.irId].irName
        && v.id == v.irId
        && exists l :: l in links && l.irId == v.irId && l.role == LDC
      ensures forall v, w :: v in r.value && w in r.value && v.irId == w.irId ==> v == w
    {
      var ids := LdcIds(links);
      Success(Ok, set id | id in ids && id in irs :: LdcView(id, irs[id].irName, id))
    }

    /** get_teams_by_ldc: the teams `ldcId` coordinates, each once; 500 for an ID the driver refuses. */
    function GetTeamsByLdc(ldcId: string): (r: Response<seq<Team>>)
      reads this
      requires Valid()
      ensures r.Success? <==> NoNul(ldcId)
      ensures r.Failure? ==> r.status == ServerError
      ensures r.Success? ==> r.status == Ok
      ensures r.Success? ==> forall t :: t in r.value <==>
        t.id in teams && teams[t.id] == t && exists l :: l in links && l.irId == ldcId && l.teamId == t.id && l.role == LDC
      ensures r.Success? ==> forall i, j :: 0 <= i < j < |r.value| ==> r.value[i] != r.value[j]
    {
      if !NoNul(ldcId) then Failure(ServerError)
      else
        LdcTeamsDistinct(links, teams, ldcId);
        Success(Ok, LdcTeams(links, teams, ldcId))
    }

    /**
     * get_team_members, as written: the rows are ORM objects, which the JSON
     * response cannot serialise, so only an empty listing gets through and
     * any team with a member answers 500.
     */
    function GetTeamMembers(teamId: int): (r: Response<seq<TeamMemberLink>>)
      reads this
      ensures r.Success? <==> forall l :: l in links ==> l.teamId != teamId
      ensures r.Success? ==> r == Success(Ok, [])
      ensures r.Failure? ==> r.status == ServerError
    {
      var members := MembersOf(links, teamId);
      MembersOfEmpty(links, teamId);
      if members == [] then Success(Ok, members) else Failure(ServerError)
    }

    /** get_team_members as evidently intended: the team's links, answered with 200. */
    function TeamMembersIntended(teamId: int): (r: Response<seq<TeamMemberLink>>)
      reads this
      ensures r.Success? && r.status == Ok
      ensures forall l :: l in r.value <==> l in links && l.teamId == teamId
      ensures forall l :: multiset(r.value)[l] == (if l.teamId == teamId then multiset(links)[l] else 0)
    {
      Success(Ok, MembersOf(links, teamId))
    }

    /** The two agree exactly on teams without members; for any other team the written handler fails. */
    lemma MemberListingFails(teamId: int)
      ensures GetTeamMembers(teamId).Success? <==> TeamMembersIntended(teamId).value == []
      ensures (exists l :: l in links && l.teamId == teamId) ==>
        GetTeamMembers(teamId) == Failure(ServerError) && TeamMembersIntended(teamId).value != []
    {
      if exists l :: l in links && l.teamId == teamId {
        var l :| l in links && l.teamId == teamId;
        assert l in MembersOf(links, teamId);
      }
    }

    /**
     * ir_login, as written: the 404 for an unknown id and the 401 for a bad
     * password are raised inside the broad exception handler, which turns
     * both into 500.
     */
    function IrLogin(irId: string, password: string): (r: Response<IrView>)
      reads this
      ensures r.Success? <==> NoNul(irId) && irId in irs && Bcrypt.Verifies(password, irs[irId].irPassword)
      ensures r.Success? ==> r.status == Created && r.value == Redact(irs[irId])
      ensures r.Failure? ==> r.status == ServerError
    {
      if !NoNul(irId) then Failure(ServerError)
      else if irId !in irs then Failure(ServerError)
      else if !Bcrypt.Verifies(password, irs[irId].irPassword) then Failure(ServerError)
      else Success(Created, Redact(irs[irId]))
    }

    /**
     * ir_login as its raise lines intend: 404 for an unknown id, 401 for a
     * bad password; an id the driver refuses still fails the lookup with 500.
     */
    function IrLoginIntended(irId: string, password: string): (r: Response<IrView>)
      reads this
      ensures r.Success? <==> NoNul(irId) && irId in irs && Bcrypt.Verifies(password, irs[irId].irPassword)
      ensures r.Success? ==> r.status == Created && r.value == Redact(irs[irId])
      ensures r.Failure? ==> r.status == (if !NoNul(irId) then ServerError else if irId in irs then Unauthorized else NotFound)
    {
      if !NoNul(irId) then Failure(ServerError)
      else if irId !in irs then Failure(NotFound)
      else if !Bcrypt.Verifies(password, irs[irId].irPassword) then Failure(Unauthorized)
      else Success(Created, Redact(irs[irId]))
    }

    /**
     * Both versions fail on the same requests, but the written one answers
     * with 500 every failure the intended one answers with 404 or 401.
     */
    lemma LoginErrorsBecomeServerErrors(irId: string, password: string)
      ensures IrLogin(irId, password).Failure? <==> IrLoginIntended(irId, password).Failure?
      ensures IrLogin(irId, password).Failure? && NoNul(irId) ==>
        IrLogin(irId, password).status == ServerError && IrLoginIntended(irId, password).status != ServerError
      ensures NoNul(irId) && irId !in irs ==>
        IrLogin(irId, password) == Failure(ServerError) && IrLoginIntended(irId, password) == Failure(NotFound)
    {
    }

    /**
     * update_ir_details: 404 for an unreserved id, otherwise an empty answer;
     * nothing is updated. As in get_single_ir, an id the driver refuses
     * answers a bare 500.
     */
    function UpdateIrDetails(irId: string): (r: Response<()>)
      reads this
      ensures r.Success? <==> NoNul(irId) && irId in slots
      ensures r.Success? ==> r.status == Ok
      ensures r.Failure? ==> r.status == (if NoNul(irId) then NotFound else ServerError)
    {
      if !NoNul(irId) then Failure(ServerError)
      else if irId in slots then Success(Ok, ())
      else Failure(NotFound)
    }

    /**
     * add_ir_id: reserve an ID. A too-long ID fails validation; an ID the
     * driver refuses and a duplicate fail at commit; all reach the outer
     * handler, which rolls back and answers 500.
     */
    method AddIrId(irId: string) returns (r: Response<IrIdRecord>)
      requires Valid()
      modifies this
      ensures Valid()
      ensures irs == old(irs) && teams == old(teams) && links == old(links)
      ensures nextTeamId == old(nextTeamId) && nextLinkId == old(nextLinkId)
      ensures r.Success? <==> |irId| <= IrIdMaxLength && NoNul(irId) && irId !in old(slots)
      ensures r.Success? ==> r == Success(Ok, IrIdRecord(irId)) && slots == old(slots) + {irId}
      ensures r.Failure? ==> r.status == ServerError && slots == old(slots)
      ensures r.Success? ==> GetSingleIr(irId) == Success(Ok, IrIdRecord(irId))
    {
      if |irId| > IrIdMaxLength || !NoNul(irId) || irId in slots {
        r := Failure(ServerError);
      } else {
        slots := slots + {irId};
        r := Success(Ok, IrIdRecord(irId));
      }
    }

    /**
     * register_new_ir: the body is an IrModel table model, whose constructor
     * does not validate, so the payload reaches the handler as sent. The ID
     * lookup sits outside any exception handler: an ID the driver refuses
     * answers a bare 500, and an unreserved ID gets 404. The password is
     * then replaced by its salted hash, and only that record is validated:
     * a field outside IrModel's bounds raises there, is rolled back and gets
     * 500. The plaintext password's length is never checked. A text column
     * the driver refuses fails at commit with 500; an ID already registered
     * fails at commit with an integrity error, is rolled back and gets 422.
     */
    method RegisterNewIr(payload: Ir, salt: Bcrypt.Salt) returns (r: Response<string>)
      requires Valid()
      modifies this
      ensures Valid()
      ensures slots == old(slots) && teams == old(teams) && links == old(links)
      ensures nextTeamId == old(nextTeamId) && nextLinkId == old(nextLinkId)
      ensures !NoNul(payload.irId) ==> r == Failure(ServerError)
      ensures NoNul(payload.irId) && payload.irId !in old(slots) ==> r == Failure(NotFound)
      ensures payload.irId in old(slots) && (|payload.irName| > IrNameMaxLength || !TextStorable(payload)) ==>
        r == Failure(ServerError)
      ensures
        (&& payload.irId in old(slots)
         && |payload.irName| <= IrNameMaxLength
         && TextStorable(payload)
         && payload.irId in old(irs)) ==>
        r == Failure(Unprocessable)
      ensures r.Success? <==>
        && payload.irId in old(slots)
        && |payload.irName| <= IrNameMaxLength
        && TextStorable(payload)
        && payload.irId !in old(irs)
      ensures r.Success? ==> r == Success(Created, payload.irId)
      ensures r.Success? ==>
        irs == old(irs)[payload.irId := payload.(irPassword := Bcrypt.Hash(salt, payload.irPassword))]
      ensures r.Failure? ==> irs == old(irs)
      ensures r.Success? ==> IrLogin(payload.irId, payload.irPassword).Success?
    {
      if !NoNul(payload.irId) {
        r := Failure(ServerError);
        return;
      }
      if payload.irId !in slots {
        r := Failure(NotFound);
        return;
      }
      var stored := payload.(irPassword := Bcrypt.Hash(salt, payload.irPassword));
      // the ID is reserved, hence short enough, and the hash has 60 characters
      assert WithinFieldBounds(stored) <==> |payload.irName| <= IrNameMaxLength;
      assert TextStorable(stored) <==> TextStorable(payload);
      if !WithinFieldBounds(stored) || !TextStorable(stored) {
        r := Failure(ServerError);
      } else if payload.irId in irs {
        r := Failure(Unprocessable);
      } else {
        irs := irs[payload.irId := stored];
        // links that pointed at a registered identity still do
        assert old(irs).Keys <= irs.Keys;
        r := Success(Created, payload.irId);
        Bcrypt.HashVerifies(salt, payload.irPassword);
        // the stored hash is what the login checks the password against
        assert irs[payload.irId].irPassword == Bcrypt.Hash(salt, payload.irPassword);
      }
    }

    /**
     * create_team: a new team under the next id of the team sequence, with
     * no members. A name the driver refuses fails before the insert reaches
     * the database, so no team id is drawn, and answers 500.
     */
    method CreateTeam(name: string) returns (r: Response<Team>)
      requires Valid()
      modifies this
      ensures Valid()
      ensures slots == old(slots) && irs == old(irs) && links == old(links) && nextLinkId == old(nextLinkId)
      ensures r.Success? <==> NoNul(name)
      ensures r.Failure? ==> r == Failure(ServerError) && teams == old(teams) && nextTeamId == old(nextTeamId)
      ensures r.Success? ==> r.status == Created
      ensures r.Success? ==> r.value.id == old(nextTeamId) && r.value.id !in old(teams) && r.value.name == name
      ensures r.Success? ==> teams == old(teams)[r.value.id := r.value]
      ensures r.Success? ==> nextTeamId == old(nextTeamId) + 1
      ensures r.Success? ==> TeamMembersIntended(r.value.id).value == []
    {
      if !NoNul(name) {
        r := Failure(ServerError);
        return;
      }
      var team := Team(nextTeamId, name);
      teams := teams[team.id := team];
      nextTeamId := nextTeamId + 1;
      r := Success(Created, team);
      MembersOfEmpty(links, team.id);
    }

    /**
     * assign_ir_to_team: a role outside the enum is refused by request
     * validation (422); an identity id the driver refuses fails the
     * existence query and gets 500; an existing link for the same identity and team,
     * whatever its role, gets 409 unchanged; a team id outside the INTEGER
     * range fails while the insert is planned, before the link sequence is
     * drawn, and gets 500; a missing team or identity violates a foreign key
     * at commit, is rolled back and gets 500 (the link id drawn from the
     * sequence is spent all the same). Otherwise one link is appended.
     */
    method AssignIrToTeam(irId: string, teamId: int, roleName: string) returns (r: Response<AssignMessage>)
      requires Valid()
      modifies this
      ensures Valid()
      ensures slots == old(slots) && irs == old(irs) && teams == old(teams) && nextTeamId == old(nextTeamId)
      ensures ParseRole(roleName).None? ==> r == Failure(Unprocessable)
      ensures ParseRole(roleName).Some? && !NoNul(irId) ==> r == Failure(ServerError) && nextLinkId == old(nextLinkId)
      ensures ParseRole(roleName).Some? && (exists l :: l in old(links) && SamePair(l, irId, teamId)) ==>
        r == Failure(Conflict)
      ensures
        (&& ParseRole(roleName).Some?
         && (forall l :: l in old(links) ==> !SamePair(l, irId, teamId))
         && !FitsInteger(teamId)) ==>
        r == Failure(ServerError) && nextLinkId == old(nextLinkId)
      ensures
        (&& ParseRole(roleName).Some?
         && (forall l :: l in old(links) ==> !SamePair(l, irId, teamId))
         && NoNul(irId)
         && FitsInteger(teamId)
         && (teamId !in teams || irId !in irs)) ==>
        r == Failure(ServerError) && nextLinkId == old(nextLinkId) + 1
      ensures r.Success? <==>
        && ParseRole(roleName).Some?
        && (forall l :: l in old(links) ==> !SamePair(l, irId, teamId))
        && FitsInteger(teamId) && teamId in teams && irId in irs
      ensures r.Success? ==>
        && r == Success(Created, AssignMessage(ParseRole(roleName).value, teamId))
        && links == old(links) + [TeamMemberLink(old(nextLinkId), teamId, irId, ParseRole(roleName).value)]
        && nextLinkId == old(nextLinkId) + 1
      ensures r.Failure? ==> links == old(links)
      ensures r.Failure? && r.status != ServerError ==> nextLinkId == old(nextLinkId)
      ensures r.Success? && ParseRole(roleName) == Some(LDC) ==>
        teams[teamId] in GetTeamsByLdc(irId).value && LdcView(irId, irs[irId].irName, irId) in GetLdcs().value
    {
      var role := ParseRole(roleName);
      if role.None? {
        r := Failure(Unprocessable);
        return;
      }
      if !NoNul(irId) {
        r := Failure(ServerError);
        return;
      }
      var existing := FirstLinkFor(links, irId, teamId);
      if existing.Some? {
        r := Failure(Conflict);
        return;
      }
      if !FitsInteger(teamId) {
        r := Failure(ServerError);
        return;
      }
      var link := TeamMemberLink(nextLinkId, teamId, irId, role.value);
      nextLinkId := nextLinkId + 1;
      if teamId !in teams || irId !in irs {
        r := Failure(ServerError);
        return;
      }
      AppendKeepsPairsUnique(links, link);
      links := links + [link];
      r := Success(Created, AssignMessage(role.value, teamId));
      assert links[|links| - 1] == link && link in links;
      // the earlier links are kept as they were
      assert forall i | 0 <= i < |links| - 1 :: links[i] == old(links)[i];
    }
  }

  /**
   * The registration walk-through: reserve an ID, register it with every
   * optional field left at its default, log in with the same password, and
   * fail to register it again.
   */
  method RegistrationScenario(irId: string, name: string, email: string, password: string, salt: Bcrypt.Salt, today: Date)
    requires |irId| <= IrIdMaxLength && |name| <= IrNameMaxLength && ValidDate(today)
    requires NoNul(irId) && NoNul(name) && NoNul(email)
  {
    var d := new Directory();
    var added := d.AddIrId(irId);
    assert added.Success?;
    var payload := NewIr(irId, name, email, password, today);
    var registered := d.RegisterNewIr(payload, salt);
    assert registered == Success(Created, irId);
    assert d.IrLogin(irId, password).Success?;
    var again := d.RegisterNewIr(payload, salt);
    assert again == Failure(Unprocessable);
  }

  /**
   * An unreserved ID answers 404 and an ID holding U+0000 cannot be
   * reserved. Only the hashed record is validated, so a name above the
   * maximum length answers 500, while a password of any length, the empty
   * one included, is accepted.
   */
  method ValidationScenario(irId: string, name: string, email: string, salt: Bcrypt.Salt)
    requires |irId| <= IrIdMaxLength && |name| <= IrNameMaxLength
    requires NoNul(irId) && NoNul(name) && NoNul(email)
  {
    var d := new Directory();
    var payload := Ir(irId, name, email, "", true, None, None, None, None, None);
    var unreserved := d.RegisterNewIr(payload, salt);
    assert unreserved == Failure(NotFound);
    var nul := d.AddIrId(irId + "\0");
    assert (irId + "\0")[|irId|] == '\0';
    assert nul == Failure(ServerError);
    var added := d.AddIrId(irId);
    assert added.Success?;
    var tooLong := d.RegisterNewIr(payload.(irName := name + seq(IrNameMaxLength + 1 - |name|, _ => 'n')), salt);
    assert tooLong == Failure(ServerError);
    var short := d.RegisterNewIr(payload, salt);
    assert short == Success(Created, irId);
  }

  /**
   * The assignment walk-through: an identity made coordinator of a new team
   * is listed for it, and a second assignment to the same team under another
   * role is refused.
   */
  method AssignmentScenario(d: Directory, irId: string, teamName: string)
    requires d.Valid() && irId in d.irs && d.nextTeamId <= IntegerMax && NoNul(teamName)
    modifies d
  {
    var team := d.CreateTeam(teamName);
    var first := d.AssignIrToTeam(irId, team.value.id, "LDC");
    assert first.Success?;
    assert team.value in d.GetTeamsByLdc(irId).value;
    var second := d.AssignIrToTeam(irId, team.value.id, "GC");
    assert second == Failure(Conflict);
  }
}

=== FILE: wrappers.dfy ===
/** Optional values, as `Optional[...]` fields and `.first()` lookups produce them. */
module Wrappers {

  datatype Option<+T> = None | Some(value: T)
}
